=== FILE: README.md ===
# DRF API Logger middleware: a Dafny model

This project models `APILoggerMiddleware`, the Django middleware of DRF API
Logger that decides, for every request, whether to log it, and if so builds a
log record and hands it to the background logger queue and/or the
`API_LOGGER_SIGNAL`. The model has three parts:

- **Configuration** (`LoggerSettings`): `__init__` reads the Django settings
  (a map from setting name to Python value). Each setting falls back to its
  default. An unknown path type is ignored. A list setting is kept only when
  it is a `list` or a `tuple`. `get_api_uri` picks the URL string for the
  configured path type.
- **Per-request pipeline** (`Middleware`): `__call__` is a pure function from
  the configuration, the collaborators, the downstream handler and the
  request to an outcome:
  - `Passthrough`: disabled, admin namespace, skipped URL name, or skipped
    namespace.
  - `NotLogged`: the status code, the method or the content type is filtered
    out.
  - `Logged`: carries the record and its deliveries.
  - `Raised`: an exception escapes `__call__`.

  `process_exception` builds the diagnostic record. `save_data` fans the
  record out.
- **Reference policy** (`Policy`): the filter rules as a declarative chain.
  It is proved to agree with `__call__` for every URL that resolves. The
  reason reported is the first rule that rejects the request. A request is
  logged exactly when all rules admit it and its response body can be read.
  When all rules admit it but the body cannot be read, `__call__` raises.

The collaborators whose code is not modelled are function-valued fields of
`Http.Env`. Nothing is assumed about what they compute. Being total
functions, the ones without an optional result are taken never to raise and
to be deterministic (see "## Left out"):

- `resolve`
- `json.loads` / `json.dumps`
- `bytes.decode`
- `mask_sensitive_data`
- `get_headers`
- `get_client_ip`
- `get_app_name_from_url`
- whether `LOGGER_THREAD` exists

The downstream `get_response` is a `Request -> Response` parameter. The two
`time.time()` readings are a `Clock` parameter. `timezone.now()` is an
`Instant` parameter.

Python's own semantics are modelled where the middleware relies on them
(`PyValues`):

- truthiness of settings and of the parsed request body;
- `==` between ints, floats and bools;
- `in` as a left-to-right scan.

## Model

| member | source | states |
|---|---|---|
| PyValues.PyIn | drf_api_logger/middleware/api_logger_middleware.py:86-91 | `x in list` holds exactly when some element of the list equals `x` under Python `==` |
| PyValues.NumericMembership | drf_api_logger/middleware/api_logger_middleware.py:105 | A status code matches a listed float of the same value, and a listed `True` matches only the code 1 |
| LoggerSettings.Normalise | drf_api_logger/middleware/api_logger_middleware.py:21-60 | After `__init__` the path type is one of ABSOLUTE/RAW_URI/FULL_PATH; a recognised setting is kept, and an absent, unrecognised or `'ABSOLUTE'` one gives ABSOLUTE. A present flag is kept and a missing one is falsy. A list or tuple setting is kept; one that is absent or of any other type leaves the list empty |
| LoggerSettings.NormaliseExport | drf_api_logger/middleware/api_logger_middleware.py:21-60 | Every configuration with a valid path type comes from some settings module, and `__init__` reproduces it exactly |
| LoggerSettings.NormaliseIdempotent | drf_api_logger/middleware/api_logger_middleware.py:21-60 | Configuring from the settings of an already configured middleware changes nothing |
| LoggerSettings.EnabledIff | drf_api_logger/middleware/api_logger_middleware.py:25-31 | The logger is enabled exactly when a present database or signal setting is truthy; a flag set to `{}` counts as off |
| LoggerSettings.GetApiUri | drf_api_logger/middleware/api_logger_middleware.py:62-71 | The logged URL is always one of the absolute URI, the full path or the raw URI of the request |
| LoggerSettings.ApiUriFollowsSettings | drf_api_logger/middleware/api_logger_middleware.py:33-71 | After `__init__`, `get_api_uri` renders exactly the mode the setting names and the absolute URI for anything else, so its final fallback branch never decides |
| Middleware.ParseRequestBody | drf_api_logger/middleware/api_logger_middleware.py:94-98 | The request body is parsed JSON exactly when it is non-empty and parses; otherwise it is `''`; it never fails |
| Middleware.ResponseBody | drf_api_logger/middleware/api_logger_middleware.py:118-128 | gzip gives the GZIP placeholder even when streamed; other streams give the streaming placeholder; only other content is parsed, and only its parse can fail |
| Middleware.DumpedCopy | drf_api_logger/middleware/api_logger_middleware.py:190-194 | The queued copy has headers and response JSON-dumped, the body dumped only when the request data is truthy, and every other field unchanged |
| Middleware.SaveData | drf_api_logger/middleware/api_logger_middleware.py:187-197 | The dumped copy is queued iff the database flag is truthy and the logger thread exists. The original record is signalled iff the signal flag is truthy. Queue comes before signal, and nothing else is delivered |
| Middleware.Decide | drf_api_logger/middleware/api_logger_middleware.py:73-148 | A disabled logger skips. An enabled logger whose URL does not resolve fails with Resolver404. A record ready for saving holds every field as `__call__` builds it (see `Middleware.Call`) and comes with the parsed request body |
| Middleware.Call | drf_api_logger/middleware/api_logger_middleware.py:73-151 | Unless an exception escapes, the caller gets the handler's response unchanged. With both flags off it is a pure passthrough; enabled with an unresolvable URL it raises Resolver404. A logged record holds the app name from the unmasked URL, the masked URL, the masked headers, request body and response body, the method, the client address, the response status, the clock difference and `now`, and is delivered per `save_data` |
| Middleware.CallAsWritten | drf_api_logger/middleware/api_logger_middleware.py:146 | With the call as written, no request is ever logged. A request that reaches `save_data` raises TypeError |
| Middleware.ExceptionMessage | drf_api_logger/middleware/api_logger_middleware.py:158-162 | The diagnostic message is, at fixed offsets, `**`, the URL, `**` and a blank line, the exception's repr, a blank line and an opening four-backtick fence, the traceback, and a closing four-backtick fence |
| Middleware.ProcessException | drf_api_logger/middleware/api_logger_middleware.py:153-185 | Returns the exception it was given. For an exception it builds a record with status 500, execution time 0 and the masked message. Its `api` follows the path type although the message uses the absolute URL. The body is the masked parsed request body, or the masked `''` when that is empty or unparseable. Headers, method, client address, app name and `now` are recorded as in `__call__`. The record is delivered per `save_data`, whatever the skip lists say |
| Policy.FirstRejected | drf_api_logger/middleware/api_logger_middleware.py:76-118 | Reference for the filter order: the reported rule rejects the request and every earlier rule admits it; no rule is reported exactly when all admit it |
| Policy.CallFollowsChain | drf_api_logger/middleware/api_logger_middleware.py:76-148 | First match wins: for a resolvable URL, the reason `__call__` reports for not logging is the first rule of the chain that rejects the request |
| Policy.AdmittedUnreadableBodyRaises | drf_api_logger/middleware/api_logger_middleware.py:124-128 | A resolvable request that every rule admits but whose response body cannot be decoded or parsed makes `__call__` raise `ResponseBodyUnreadable`, the converse of `Properties.UnreadableBodyRaises` |
| Policy.LoggedIff | drf_api_logger/middleware/api_logger_middleware.py:76-148 | A request to a resolvable URL is logged iff every rule admits it and its response body can be read |
| Properties.AdminAlwaysPassesThrough | drf_api_logger/middleware/api_logger_middleware.py:81-83 | The `admin` namespace is forwarded unlogged regardless of lists, method, status and response |
| Properties.SkipListsPassThrough | drf_api_logger/middleware/api_logger_middleware.py:85-91 | A listed URL name or namespace is forwarded unlogged with the handler's response |
| Properties.UnlistedStatusNotLogged | drf_api_logger/middleware/api_logger_middleware.py:104-106 | With a non-empty status list, an unlisted status is never logged. If it is filtered at all, the reason is the status list |
| Properties.EmptyStatusListNeverFilters | drf_api_logger/middleware/api_logger_middleware.py:56-60 | A status setting that is absent or not a list/tuple never filters a response |
| Properties.MethodFilterAfterStatus | drf_api_logger/middleware/api_logger_middleware.py:105-116 | A method rejection happens only after the status filter passed, and only when the method list is non-empty and lacks the method |
| Properties.OnlyLoggedContentTypes | drf_api_logger/middleware/api_logger_middleware.py:118 | Only `application/json`, `application/vnd.api+json` and `application/gzip` responses are logged |
| Properties.GzipPlaceholderWins | drf_api_logger/middleware/api_logger_middleware.py:120-121 | A logged gzip response records the masked GZIP placeholder |
| Properties.StreamingPlaceholder | drf_api_logger/middleware/api_logger_middleware.py:122-123 | A logged non-gzip streamed response records the masked streaming placeholder |
| Properties.PlaceholdersIgnoreContent | drf_api_logger/middleware/api_logger_middleware.py:120-128 | For gzip or streamed responses the recorded body depends neither on the content nor on the parser |
| Properties.UnreadableBodyRaises | drf_api_logger/middleware/api_logger_middleware.py:124-128 | `__call__` raises on the body only for a non-streamed JSON or JSON:API response whose content does not decode and parse |
| Properties.LoggedDeliversPerFlags | drf_api_logger/middleware/api_logger_middleware.py:187-197 | A logged record goes to the queue (dumped copy) iff database and thread, and to the signal iff the signal flag is set. It reaches nobody iff the signal is off and the thread is missing |
| SaveDataCall.AsWrittenRaisesExactlyWhenLogged | drf_api_logger/middleware/api_logger_middleware.py:146 | The call as written raises TypeError on exactly the requests the corrected call logs, and agrees with it everywhere else |
| SaveDataCall.ArityCounterexample | drf_api_logger/middleware/api_logger_middleware.py:146 | A GET answered 200 with `application/json` is logged and delivered twice by the corrected call, and raises TypeError as written |

## Behaviour worth knowing

- The request-body parse is wrapped in `try/except` (lines 95-98). The
  response-body `decode()` / `json.loads` (lines 124-128) is not, so such a
  response makes `__call__` raise (`Raised(ResponseBodyUnreadable)`).
- `resolve` is called before any logging work and is not guarded. A URL that
  does not resolve makes `__call__` raise Resolver404 when the logger is
  enabled. The model shows this as `Raised(Resolver404)`.
- `process_exception` does not consult the enabled flag or the skip lists.
  It builds a record for every exception, including admin views. Only
  `save_data`'s flags decide whether it goes anywhere.
- The content-type test compares the whole header value. A type with
  parameters, such as `application/json; charset=utf-8`, is not logged.
- The application name is derived from the unmasked URL. The `api` field
  holds the masked one.

## Left out

- The internals of `mask_sensitive_data`, `get_headers`, `get_client_ip` and
  `get_app_name_from_url` are left out: `drf_api_logger/utils.py` is not part
  of this model. They are uninterpreted functions.
- `mask_sensitive_data`, `get_headers`, `get_client_ip` and
  `get_app_name_from_url` are taken never to raise and to give the same
  result for the same input. The middleware calls them unguarded (lines 111,
  132, 136-141 and 171-178), so an exception from one of them is not
  modelled.
- JSON parsing and UTF-8 decoding are left out. They are uninterpreted
  functions returning an optional result. `json.dumps` is an uninterpreted
  total function, so it is taken never to raise.
- Django's URL resolution, settings loading and request/response objects are
  abstract fields. `get_raw_uri` is taken as available; newer Django versions
  removed it.
- Wall-clock time is abstract. `execution_time` is modelled as the difference
  of two real clock readings, and `added_on` as an abstract instant.
- Traceback formatting is a string parameter.
- The background logger thread, its queue and its batching consumer are left
  out. Only the `put_log_data` hand-off is modelled, as a `Queued` delivery.
- The signal's listeners are left out. Only the hand-off is modelled, as a
  `Signalled` delivery.
- Middleware.Call: does not state that `get_response` runs exactly once per
  request. In a pure model the handler is a function, and a call count is not
  observable.
- PyValues.PyIn: containers and other objects compare structurally. A Python
  `set` is compared as a sequence, and an arbitrary object by its kind and
  truthiness. So numeric objects other than int, float and bool are not
  matched by value: `200 in [Decimal(200)]` is true in Python but false in
  the model. Int subclasses such as `HTTPStatus.OK` are to be encoded as
  `PInt`.
- Middleware.Call: takes the downstream handler not to change the request.
  `__call__` reads the request body before `get_response` (line 96). It reads
  the headers, the method, the URL and the client address after it returns
  (lines 111-112, 130, 140). The method filter at line 115 uses that later
  method. A later middleware that rewrites `request.method` or
  `REMOTE_ADDR` changes what the source filters on and records; the model
  reads every field from the request as passed in.

## Findings

| source | as written | input that shows it | evidently intended | confidence | as-written member | corrected member |
|---|---|---|---|---|---|---|
| drf_api_logger/middleware/api_logger_middleware.py:146 | `self.save_data(self, data, request_data)` passes `self` again to a bound method that takes two arguments, so it raises TypeError and nothing is delivered | database and signal enabled, default lists, a GET to a resolvable non-admin URL answered 200 with `application/json` body `{}` | `self.save_data(data, request_data)`, as `process_exception` calls it at line 184 | high; not executed | Middleware.CallAsWritten | Middleware.Call |

=== FILE: http.dfy ===
/** The data the middleware exchanges with Django and with its helper
    functions: requests, responses, parsed JSON, the log record it assembles,
    and the collaborators whose internals are not part of this model. */
module Http {
  import opened Wrappers

  newtype byte = x: int | 0 <= x < 256

  /** `response.content` is bytes for an ordinary Django response;
      `__call__` also handles a `str` content. */
  datatype Payload = Bytes(bytes: seq<byte>) | Text(text: string)

  /** The result of `json.loads`. Numbers are kept as reals. */
  datatype Json =
    | JNull
    | JBool(b: bool)
    | JNumber(n: real)
    | JString(s: string)
    | JArray(elems: seq<Json>)
    | JObject(fields: seq<(string, Json)>)

  /** A value stored in one field of a log record: a plain string (a
      placeholder, a diagnostic message or a `json.dumps` output), a parsed
      JSON document, or a header dictionary as its (name, value) pairs in
      insertion order, which `json.dumps` preserves. */
  datatype Value = VStr(s: string) | VJson(j: Json) | VHeaders(h: seq<(string, string)>) {

    /** Python truthiness of the value (`if request_data:`). */
    predicate IsTruthy() {
      match this
      case VStr(s) => |s| > 0
      case VHeaders(h) => |h| > 0
      case VJson(j) =>
        match j
        case JNull => false
        case JBool(b) => b
        case JNumber(n) => n != 0.0
        case JString(s) => |s| > 0
        case JArray(es) => |es| > 0
        case JObject(fs) => |fs| > 0
    }
  }

  /** What `django.urls.resolve` reports about the matched URL pattern.
      `urlName` is None for a pattern without a name. */
  datatype Route = Route(urlName: Option<string>, namespace: string)

  /** The parts of a Django request the middleware reads. The three URL
      strings are what `build_absolute_uri()`, `get_full_path()` and
      `get_raw_uri()` return. */
  datatype Request = Request(
    httpMethod: string,
    pathInfo: string,
    body: seq<byte>,
    absoluteUri: string,
    fullPath: string,
    rawUri: string)

  /** The parts of a Django response the middleware reads. `contentType` is
      `response.get('content-type')`, None when the header is absent. */
  datatype Response = Response(
    statusCode: int,
    contentType: Option<string>,
    streaming: bool,
    content: Payload)

  /** `time.time()` read before and after the downstream handler. */
  datatype Clock = Clock(start: real, end: real)

  /** `timezone.now()`, kept abstract. */
  type Instant = nat

  /** The keyword set the middleware builds for one request. */
  datatype Record = Record(
    appName: string,
    api: string,
    headers: Value,
    body: Value,
    httpMethod: string,
    clientIpAddress: string,
    response: Value,
    statusCode: int,
    executionTime: real,
    addedOn: Instant)

  /** Where `save_data` sends a record: the background logger queue
      (`LOGGER_THREAD.put_log_data`) or the signal (`API_LOGGER_SIGNAL.listen`). */
  datatype Delivery = Queued(record: Record) | Signalled(record: Record)

  /** The collaborators the middleware calls but whose code is not part of
      this model, as uninterpreted functions:
      - resolve: `django.urls.resolve`; None when it raises Resolver404
      - loads: `json.loads`; None when it raises
      - decode: `bytes.decode()`; None when it raises
      - dumps: `json.dumps(..., indent=4, ensure_ascii=False)`
      - mask: `mask_sensitive_data(x)`
      - maskApi: `mask_sensitive_data(api, mask_api_parameters=True)`
      - headers: `get_headers(request=request)`
      - clientIp: `get_client_ip(request)`
      - appName: `get_app_name_from_url(api)`
      - loggerThread: whether `LOGGER_THREAD` is truthy */
  datatype Env = Env(
    resolve: string -> Option<Route>,
    loads: Payload -> Option<Json>,
    decode: seq<byte> -> Option<string>,
    dumps: Value -> string,
    mask: Value -> Value,
    maskApi: string -> string,
    headers: Request -> seq<(string, string)>,
    clientIp: Request -> string,
    appName: string -> string,
    loggerThread: bool)
}

=== FILE: middleware.dfy ===
/** `APILoggerMiddleware.__call__`, `process_exception` and `save_data`: the
    per-request filter chain, the assembly of the log record, and its
    delivery to the logger queue and the signal. */
module Middleware {
  import opened Wrappers
  import opened PyValues
  import opened Http
  import opened LoggerSettings

  const AdminNamespace := "admin"

  const JsonType := "application/json"
  const JsonApiType := "application/vnd.api+json"
  const GzipType := "application/gzip"
  const LoggedContentTypes: seq<string> := [JsonType, JsonApiType, GzipType]

  const GzipPlaceholder := "** GZIP Archive **"
  const StreamingPlaceholder := "** Streaming **"

  /** Why a request was forwarded without any logging work. */
  datatype Skip = Disabled | AdminRoute | SkippedUrlName | SkippedNamespace

  /** Why a handled request was not logged. */
  datatype Filter = StatusNotListed | MethodNotListed | ContentTypeNotLogged

  /** Exceptions that escape `__call__`: `resolve` raising Resolver404, the
      response body failing to decode or parse, and the TypeError of the
      `save_data` call as written. */
  datatype Error = Resolver404 | ResponseBodyUnreadable | SaveDataArity

  /** What one call of the middleware does. */
  datatype Outcome =
    | Passthrough(resp: Response, skip: Skip)
    | NotLogged(resp: Response, filter: Filter)
    | Logged(resp: Response, record: Record, deliveries: seq<Delivery>)
    | Raised(error: Error)

  /** The value `url_name in ...` compares: a string, or None for an unnamed
      URL pattern. */
  function UrlNameValue(route: Route): PyValue {
    match route.urlName
    case Some(n) => PStr(n)
    case None => PNone
  }

  /** `json.loads(request.body) if request.body else ''`, where any exception
      leaves the empty string: reading the request body never fails. */
  function ParseRequestBody(env: Env, body: seq<byte>): (d: Value)
    ensures d.VStr? ==> d == VStr("")
    ensures d.VJson? <==> |body| > 0 && env.loads(Bytes(body)).Some?
    ensures d.VJson? ==> env.loads(Bytes(body)) == Some(d.j)
    ensures !d.VHeaders?
  {
    if |body| == 0 then VStr("")
    else match env.loads(Bytes(body))
      case Some(j) => VJson(j)
      case None => VStr("")
  }

  /** `json.loads` of the response content, decoding it first when it is
      bytes. None when either step raises. */
  function ParseContent(env: Env, content: Payload): Option<Json> {
    match content
    case Bytes(b) =>
      (match env.decode(b)
       case Some(text) => env.loads(Text(text))
       case None => None)
    case Text(text) => env.loads(Text(text))
  }

  /** The response body recorded for a response of a logged content type:
      a placeholder for gzip archives and streams, the parsed content
      otherwise. None when the content cannot be parsed, which `__call__`
      does not catch. */
  function ResponseBody(env: Env, resp: Response): (b: Option<Value>)
    ensures resp.contentType == Some(GzipType) ==> b == Some(VStr(GzipPlaceholder))
    ensures resp.contentType != Some(GzipType) && resp.streaming ==> b == Some(VStr(StreamingPlaceholder))
    ensures b.None? || b.value.VJson? <==> resp.contentType != Some(GzipType) && !resp.streaming
    ensures b.Some? && b.value.VJson? ==> ParseContent(env, resp.content) == Some(b.value.j)
    ensures b.None? ==> ParseContent(env, resp.content).None?
  {
    if resp.contentType == Some(GzipType) then Some(VStr(GzipPlaceholder))
    else if resp.streaming then Some(VStr(StreamingPlaceholder))
    else match ParseContent(env, resp.content)
      case Some(j) => Some(VJson(j))
      case None => None
  }

  /** The `data` dictionary both record-building paths assemble. The
      application name is derived from the unmasked URL. */
  function MakeRecord(env: Env, req: Request, api: string, requestData: Value,
                      responseBody: Value, status: int, executionTime: real, now: Instant): Record
  {
    Record(
      appName := env.appName(api),
      api := env.maskApi(api),
      headers := env.mask(VHeaders(env.headers(req))),
      body := env.mask(requestData),
      httpMethod := req.httpMethod,
      clientIpAddress := env.clientIp(req),
      response := env.mask(responseBody),
      statusCode := status,
      executionTime := executionTime,
      addedOn := now)
  }

  /** The copy `save_data` hands to the logger queue: headers and response
      JSON-dumped, the body dumped only when the parsed request body is
      truthy. */
  function DumpedCopy(env: Env, data: Record, requestData: Value): (d: Record)
    ensures d.headers == VStr(env.dumps(data.headers))
    ensures d.response == VStr(env.dumps(data.response))
    ensures d.body == (if requestData.IsTruthy() then VStr(env.dumps(data.body)) else data.body)
    ensures d.(headers := data.headers, body := data.body, response := data.response) == data
  {
    var withBody := if requestData.IsTruthy() then data.(body := VStr(env.dumps(data.body))) else data;
    withBody.(headers := VStr(env.dumps(data.headers)), response := VStr(env.dumps(data.response)))
  }

  /** `save_data`: the queue receives the dumped copy when the database flag
      is set and the logger thread exists; the signal receives the original
      record when the signal flag is set. Queue first, then signal. */
  function SaveData(c: Config, env: Env, data: Record, requestData: Value): (ds: seq<Delivery>)
    ensures Queued(DumpedCopy(env, data, requestData)) in ds <==> Truthy(c.database) && env.loggerThread
    ensures Signalled(data) in ds <==> Truthy(c.signal)
    ensures forall i :: 0 <= i < |ds| ==>
              ds[i] == Queued(DumpedCopy(env, data, requestData)) || ds[i] == Signalled(data)
    ensures forall i, j :: 0 <= i < j < |ds| ==> ds[i].Queued? && ds[j].Signalled?
  {
    var queued := if Truthy(c.database) && env.loggerThread then [Queued(DumpedCopy(env, data, requestData))] else [];
    var signalled := if Truthy(c.signal) then [Signalled(data)] else [];
    queued + signalled
  }

  /** What the record of a logged request holds, field by field: the
      application name from the unmasked URL, the masked URL, headers, request
      body and response body, the request's method and client address, the
      response's status, the time between the two clock readings, and `now`. */
  predicate RecordOf(r: Record, c: Config, env: Env, req: Request, resp: Response, clock: Clock, now: Instant) {
    && r.appName == env.appName(GetApiUri(c, req))
    && r.api == env.maskApi(GetApiUri(c, req))
    && r.headers == env.mask(VHeaders(env.headers(req)))
    && r.body == env.mask(ParseRequestBody(env, req.body))
    && r.httpMethod == req.httpMethod
    && r.clientIpAddress == env.clientIp(req)
    && ResponseBody(env, resp).Some?
    && r.response == env.mask(ResponseBody(env, resp).value)
    && r.statusCode == resp.statusCode
    && r.executionTime == clock.end - clock.start
    && r.addedOn == now
  }

  /** How far `__call__` gets before it either returns, raises or has a record
      ready for `save_data`. */
  datatype Stage =
    | Skipped(skip: Skip)
    | Filtered(filter: Filter)
    | Failed(error: Error)
    | Ready(record: Record, requestData: Value)

  /** The filter chain of `__call__`, first match wins: the enabled flag, the
      admin namespace, the skipped URL names, the skipped namespaces, then,
      after the downstream handler ran, the status-code list, the method list
      and the content type. */
  function Decide(c: Config, env: Env, handler: Request -> Response, req: Request,
                  clock: Clock, now: Instant): (st: Stage)
    ensures !c.Enabled() ==> st == Skipped(Disabled)
    ensures st.Ready? ==> st.requestData == ParseRequestBody(env, req.body)
    ensures st.Ready? ==> RecordOf(st.record, c, env, req, handler(req), clock, now)
    ensures c.Enabled() && env.resolve(req.pathInfo).None? ==> st == Failed(Resolver404)
  {
    if !c.Enabled() then Skipped(Disabled)
    else match env.resolve(req.pathInfo)
      case None => Failed(Resolver404)
      case Some(route) =>
        if route.namespace == AdminNamespace then Skipped(AdminRoute)
        else if PyIn(UrlNameValue(route), c.skipUrlNames) then Skipped(SkippedUrlName)
        else if PyIn(PStr(route.namespace), c.skipNamespaces) then Skipped(SkippedNamespace)
        else
          var requestData := ParseRequestBody(env, req.body);
          var resp := handler(req);
          if |c.statusCodes| > 0 && !PyIn(PInt(resp.statusCode), c.statusCodes) then Filtered(StatusNotListed)
          else if |c.methods| > 0 && !PyIn(PStr(req.httpMethod), c.methods) then Filtered(MethodNotListed)
          else if resp.contentType.None? || resp.contentType.value !in LoggedContentTypes then
            Filtered(ContentTypeNotLogged)
          else match ResponseBody(env, resp)
            case None => Failed(ResponseBodyUnreadable)
            case Some(responseBody) =>
              var api := GetApiUri(c, req);
              Ready(MakeRecord(env, req, api, requestData, responseBody, resp.statusCode,
                               clock.end - clock.start, now),
                    requestData)
  }

  /** `__call__` with `save_data(data, request_data)` called as intended.
      Whatever happens, the caller gets the downstream handler's response
      unchanged, unless an exception escapes. */
  function Call(c: Config, env: Env, handler: Request -> Response, req: Request,
                clock: Clock, now: Instant): (o: Outcome)
    ensures !o.Raised? ==> o.resp == handler(req)
    ensures !c.Enabled() ==> o == Passthrough(handler(req), Disabled)
    ensures o.Logged? ==> o.deliveries == SaveData(c, env, o.record, ParseRequestBody(env, req.body))
    ensures o.Logged? ==> RecordOf(o.record, c, env, req, handler(req), clock, now)
    ensures c.Enabled() && env.resolve(req.pathInfo).None? ==> o == Raised(Resolver404)
  {
    match Decide(c, env, handler, req, clock, now)
    case Skipped(why) => Passthrough(handler(req), why)
    case Filtered(why) => NotLogged(handler(req), why)
    case Failed(e) => Raised(e)
    case Ready(data, requestData) => Logged(handler(req), data, SaveData(c, env, data, requestData))
  }

  /** `__call__` as written: line 146 passes `self` a second time to the
      bound method `save_data`, which raises TypeError before anything is
      delivered. */
  function CallAsWritten(c: Config, env: Env, handler: Request -> Response, req: Request,
                         clock: Clock, now: Instant): (o: Outcome)
    ensures !o.Logged?
    ensures Decide(c, env, handler, req, clock, now).Ready? <==> o == Raised(SaveDataArity)
  {
    match Decide(c, env, handler, req, clock, now)
    case Skipped(why) => Passthrough(handler(req), why)
    case Filtered(why) => NotLogged(handler(req), why)
    case Failed(e) => Raised(e)
    case Ready(_, _) => Raised(SaveDataArity)
  }

  /** An exception raised by the downstream handler; only its `repr` is used. */
  datatype Exc = Exc(repr: string)

  /** What `process_exception` returns and what it delivers. */
  datatype Handled = Handled(returned: Option<Exc>, record: Option<Record>, deliveries: seq<Delivery>)

  /** The diagnostic message of the exception path: the absolute URL in
      bold, the exception's repr, and the traceback in a code fence. */
  function ExceptionMessage(url: string, repr: string, traceback: string): (m: string)
    ensures |m| == |url| + |repr| + |traceback| + 16
    ensures m[..2] == "**" && m[2..2 + |url|] == url && m[|url| + 2..|url| + 6] == "**\n\n"
    ensures m[|url| + 6..|url| + 6 + |repr|] == repr
    ensures m[|url| + 6 + |repr|..|url| + 12 + |repr|] == "\n\n````"
    ensures m[|m| - 4 - |traceback|..|m| - 4] == traceback && m[|m| - 4..] == "````"
  {
    "**" + url + "**\n\n" + repr + "\n\n````" + traceback + "````"
  }

  /** `process_exception`: for an exception it builds a record with status 500
      and execution time 0 and hands it to `save_data`, whatever the enabled
      flag and the skip lists say; it returns the exception it was given. */
  function ProcessException(c: Config, env: Env, req: Request, exc: Option<Exc>,
                            traceback: string, now: Instant): (h: Handled)
    ensures h.returned == exc
    ensures exc.None? <==> h.record.None?
    ensures exc.None? ==> h.deliveries == []
    ensures h.record.Some? ==> h.record.value.statusCode == 500 && h.record.value.executionTime == 0.0
    ensures h.record.Some? && (|req.body| == 0 || env.loads(Bytes(req.body)).None?) ==>
              h.record.value.body == env.mask(VStr(""))
    ensures h.record.Some? && |req.body| > 0 && env.loads(Bytes(req.body)).Some? ==>
              h.record.value.body == env.mask(VJson(env.loads(Bytes(req.body)).value))
    ensures h.record.Some? ==>
              && h.record.value.api == env.maskApi(GetApiUri(c, req))
              && h.record.value.appName == env.appName(GetApiUri(c, req))
              && h.record.value.headers == env.mask(VHeaders(env.headers(req)))
              && h.record.value.httpMethod == req.httpMethod
              && h.record.value.clientIpAddress == env.clientIp(req)
              && h.record.value.addedOn == now
    ensures h.record.Some? ==>
              h.record.value.response == env.mask(VStr(ExceptionMessage(req.absoluteUri, exc.value.repr, traceback)))
    ensures h.record.Some? ==>
              h.deliveries == SaveData(c, env, h.record.value, ParseRequestBody(env, req.body))
  {
    match exc
    case None => Handled(None, None, [])
    case Some(e) =>
      var message := ExceptionMessage(req.absoluteUri, e.repr, traceback);
      var api := GetApiUri(c, req);
      var requestData := ParseRequestBody(env, req.body);
      var data := MakeRecord(env, req, api, requestData, VStr(message), 500, 0.0, now);
      Handled(exc, Some(data), SaveData(c, env, data, requestData))
  }
}

=== FILE: policy.dfy ===
/** The logging policy as a declarative chain of rules, independent of the
    nested `if`s of `__call__`, and the lemmas tying `Call` to it: the rule
    reported for an unlogged request is the first rule of the chain that
    rejects it, and a request is logged exactly when every rule admits it and
    its response body can be read. */
module Policy {
  import opened Wrappers
  import opened PyValues
  import opened Http
  import opened LoggerSettings
  import opened Middleware

  /** The rules, each named after what it demands. */
  datatype Rule =
    | LoggerEnabled
    | NotAdmin
    | UrlNameNotSkipped
    | NamespaceNotSkipped
    | StatusListed
    | MethodListed
    | ContentTypeLogged

  /** The order in which the rules are applied. */
  const Chain: seq<Rule> :=
    [LoggerEnabled, NotAdmin, UrlNameNotSkipped, NamespaceNotSkipped,
     StatusListed, MethodListed, ContentTypeLogged]

  /** Whether one rule lets the request through, given its resolved route and
      the downstream response. An empty status or method list admits all. */
  predicate Admits(rule: Rule, c: Config, route: Route, req: Request, resp: Response) {
    match rule
    case LoggerEnabled => Truthy(c.database) || Truthy(c.signal)
    case NotAdmin => route.namespace != "admin"
    case UrlNameNotSkipped => !UrlNameListed(route, c.skipUrlNames)
    case NamespaceNotSkipped => PStr(route.namespace) !in c.skipNamespaces
    case StatusListed => c.statusCodes == [] || PyIn(PInt(resp.statusCode), c.statusCodes)
    case MethodListed => c.methods == [] || PStr(req.httpMethod) in c.methods
    case ContentTypeLogged =>
      resp.contentType == Some("application/json")
      || resp.contentType == Some("application/vnd.api+json")
      || resp.contentType == Some("application/gzip")
  }

  /** Whether the route's name (None for an unnamed pattern) is listed. */
  predicate UrlNameListed(route: Route, xs: seq<PyValue>) {
    match route.urlName
    case Some(n) => PStr(n) in xs
    case None => PNone in xs
  }

  /** The first rule of `rules` that rejects the request, if any. */
  function FirstRejected(rules: seq<Rule>, c: Config, route: Route, req: Request, resp: Response): (r: Option<Rule>)
    ensures r.None? <==> forall i :: 0 <= i < |rules| ==> Admits(rules[i], c, route, req, resp)
    ensures r.Some? ==> exists k :: 0 <= k < |rules| && rules[k] == r.value
                                    && !Admits(rules[k], c, route, req, resp)
                                    && forall i :: 0 <= i < k ==> Admits(rules[i], c, route, req, resp)
  {
    if |rules| == 0 then None
    else if !Admits(rules[0], c, route, req, resp) then Some(rules[0])
    else
      var rest := FirstRejected(rules[1..], c, route, req, resp);
      assert forall i :: 1 <= i < |rules| ==> rules[i] == rules[1..][i - 1];
      if rest.Some? then
        var k' :| 0 <= k' < |rules[1..]| && rules[1..][k'] == rest.value
                 && !Admits(rules[1..][k'], c, route, req, resp)
                 && forall i :: 0 <= i < k' ==> Admits(rules[1..][i], c, route, req, resp);
        assert rules[k' + 1] == rest.value;
        rest
      else rest
  }

  /** The rule an outcome reports as the reason the request went unlogged. */
  function ReportedRule(o: Outcome): Option<Rule> {
    match o
    case Passthrough(_, Disabled) => Some(LoggerEnabled)
    case Passthrough(_, AdminRoute) => Some(NotAdmin)
    case Passthrough(_, SkippedUrlName) => Some(UrlNameNotSkipped)
    case Passthrough(_, SkippedNamespace) => Some(NamespaceNotSkipped)
    case NotLogged(_, StatusNotListed) => Some(StatusListed)
    case NotLogged(_, MethodNotListed) => Some(MethodListed)
    case NotLogged(_, ContentTypeNotLogged) => Some(ContentTypeLogged)
    case _ => None
  }

  /** First match wins: for a resolvable URL, `__call__` skips or filters a
      request exactly when some rule of the chain rejects it, and the reason
      it reports is the first such rule. */
  lemma {:induction false} CallFollowsChain(c: Config, env: Env, handler: Request -> Response, req: Request,
                                            clock: Clock, now: Instant, route: Route)
    requires env.resolve(req.pathInfo) == Some(route)
    ensures ReportedRule(Call(c, env, handler, req, clock, now)) == FirstRejected(Chain, c, route, req, handler(req))
  {
    var resp := handler(req);
    var o := Call(c, env, handler, req, clock, now);
    ChainUnrolled(c, route, req, resp);
    if !c.Enabled() {
    } else if route.namespace == AdminNamespace {
    } else if PyIn(UrlNameValue(route), c.skipUrlNames) {
      UrlNameInIsMembership(route, c.skipUrlNames);
    } else if PyIn(PStr(route.namespace), c.skipNamespaces) {
      UrlNameInIsMembership(route, c.skipUrlNames);
      StrInIsMembership(route.namespace, c.skipNamespaces);
    } else {
      UrlNameInIsMembership(route, c.skipUrlNames);
      StrInIsMembership(route.namespace, c.skipNamespaces);
      assert Admits(UrlNameNotSkipped, c, route, req, resp) && Admits(NamespaceNotSkipped, c, route, req, resp);
      StrInIsMembership(req.httpMethod, c.methods);
    }
  }

  /** The skip test on the URL name is plain membership of its Python value. */
  lemma UrlNameInIsMembership(route: Route, xs: seq<PyValue>)
    ensures PyIn(UrlNameValue(route), xs) <==> UrlNameListed(route, xs)
  {
    match route.urlName
    case Some(n) => StrInIsMembership(n, xs);
    case None => PNoneInIsMembership(xs);
  }

  /** The chain applied rule by rule. */
  lemma ChainUnrolled(c: Config, route: Route, req: Request, resp: Response)
    ensures FirstRejected(Chain, c, route, req, resp) ==
      if !Admits(LoggerEnabled, c, route, req, resp) then Some(LoggerEnabled)
      else if !Admits(NotAdmin, c, route, req, resp) then Some(NotAdmin)
      else if !Admits(UrlNameNotSkipped, c, route, req, resp) then Some(UrlNameNotSkipped)
      else if !Admits(NamespaceNotSkipped, c, route, req, resp) then Some(NamespaceNotSkipped)
      else if !Admits(StatusListed, c, route, req, resp) then Some(StatusListed)
      else if !Admits(MethodListed, c, route, req, resp) then Some(MethodListed)
      else if !Admits(ContentTypeLogged, c, route, req, resp) then Some(ContentTypeLogged)
      else None
  {
    var a := Admits(LoggerEnabled, c, route, req, resp);
    var b := Admits(NotAdmin, c, route, req, resp);
    var u := Admits(UrlNameNotSkipped, c, route, req, resp);
    var n := Admits(NamespaceNotSkipped, c, route, req, resp);
    var st := Admits(StatusListed, c, route, req, resp);
    var m := Admits(MethodListed, c, route, req, resp);
    var ct := Admits(ContentTypeLogged, c, route, req, resp);
    var r7 := FirstRejected(Chain[7..], c, route, req, resp);
    assert r7 == None;
    var r6 := FirstRejected(Chain[6..], c, route, req, resp);
    assert Chain[6..][0] == ContentTypeLogged && Chain[6..][1..] == Chain[7..];
    assert r6 == if !ct then Some(ContentTypeLogged) else r7;
    var r5 := FirstRejected(Chain[5..], c, route, req, resp);
    assert Chain[5..][0] == MethodListed && Chain[5..][1..] == Chain[6..];
    assert r5 == if !m then Some(MethodListed) else r6;
    var r4 := FirstRejected(Chain[4..], c, route, req, resp);
    assert Chain[4..][0] == StatusListed && Chain[4..][1..] == Chain[5..];
    assert r4 == if !st then Some(StatusListed) else r5;
    var r3 := FirstRejected(Chain[3..], c, route, req, resp);
    assert Chain[3..][0] == NamespaceNotSkipped && Chain[3..][1..] == Chain[4..];
    assert r3 == if !n then Some(NamespaceNotSkipped) else r4;
    var r2 := FirstRejected(Chain[2..], c, route, req, resp);
    assert Chain[2..][0] == UrlNameNotSkipped && Chain[2..][1..] == Chain[3..];
    assert r2 == if !u then Some(UrlNameNotSkipped) else r3;
    var r1 := FirstRejected(Chain[1..], c, route, req, resp);
    assert Chain[1..][0] == NotAdmin && Chain[1..][1..] == Chain[2..];
    assert r1 == if !b then Some(NotAdmin) else r2;
    assert Chain[0] == LoggerEnabled;
    assert FirstRejected(Chain, c, route, req, resp) == if !a then Some(LoggerEnabled) else r1;
  }

  /** For None, `in` is plain membership. */
  lemma PNoneInIsMembership(xs: seq<PyValue>)
    ensures PyIn(PNone, xs) <==> PNone in xs
  {
    if PNone in xs {
      var i :| 0 <= i < |xs| && xs[i] == PNone;
      assert PyEq(PNone, xs[i]);
    }
  }

  /** A request to a resolvable URL is logged exactly when every rule of the
      chain admits it and its response body can be read; the record then
      carries the response's status code and the request's method. */
  lemma LoggedIff(c: Config, env: Env, handler: Request -> Response, req: Request,
                  clock: Clock, now: Instant, route: Route)
    requires env.resolve(req.pathInfo) == Some(route)
    ensures Call(c, env, handler, req, clock, now).Logged?
            <==> (forall i :: 0 <= i < |Chain| ==> Admits(Chain[i], c, route, req, handler(req)))
                 && ResponseBody(env, handler(req)).Some?
  {
    CallFollowsChain(c, env, handler, req, clock, now, route);
  }

  /** A request to a resolvable URL that every rule admits, but whose
      response body cannot be decoded or parsed, makes `__call__` raise, and
      the exception is the one of the body, not another. */
  lemma {:induction false} AdmittedUnreadableBodyRaises(c: Config, env: Env, handler: Request -> Response,
                                                        req: Request, clock: Clock, now: Instant, route: Route)
    requires env.resolve(req.pathInfo) == Some(route)
    requires forall i :: 0 <= i < |Chain| ==> Admits(Chain[i], c, route, req, handler(req))
    requires ResponseBody(env, handler(req)).None?
    ensures Call(c, env, handler, req, clock, now) == Raised(ResponseBodyUnreadable)
  {
    var resp := handler(req);
    assert Admits(Chain[0], c, route, req, resp) && Admits(Chain[1], c, route, req, resp);
    assert Admits(Chain[2], c, route, req, resp) && Admits(Chain[3], c, route, req, resp);
    assert Admits(Chain[4], c, route, req, resp) && Admits(Chain[5], c, route, req, resp);
    assert Admits(Chain[6], c, route, req, resp);
    UrlNameInIsMembership(route, c.skipUrlNames);
    StrInIsMembership(route.namespace, c.skipNamespaces);
    StrInIsMembership(req.httpMethod, c.methods);
  }
}

=== FILE: properties.dfy ===
/** Properties of the middleware stated about single filters: what each rule
    does on its own, and how the response body of a logged request is chosen. */
module Properties {
  import opened Wrappers
  import opened PyValues
  import opened Http
  import opened LoggerSettings
  import opened Middleware

  /** The admin site is never logged, whatever the skip lists, the method and
      status-code lists and the response are. */
  lemma AdminAlwaysPassesThrough(c: Config, env: Env, handler: Request -> Response, req: Request,
                                 clock: Clock, now: Instant)
    requires c.Enabled()
    requires env.resolve(req.pathInfo).Some? && env.resolve(req.pathInfo).value.namespace == "admin"
    ensures Call(c, env, handler, req, clock, now) == Passthrough(handler(req), AdminRoute)
  {
  }

  /** A skipped URL name or namespace forwards the request without looking at
      the response. */
  lemma SkipListsPassThrough(c: Config, env: Env, handler: Request -> Response, req: Request,
                             clock: Clock, now: Instant, route: Route)
    requires c.Enabled() && env.resolve(req.pathInfo) == Some(route) && route.namespace != "admin"
    requires (route.urlName.Some? && PStr(route.urlName.value) in c.skipUrlNames)
             || PStr(route.namespace) in c.skipNamespaces
    ensures Call(c, env, handler, req, clock, now).Passthrough?
    ensures Call(c, env, handler, req, clock, now).resp == handler(req)
  {
    StrInIsMembership(route.namespace, c.skipNamespaces);
    if route.urlName.Some? {
      StrInIsMembership(route.urlName.value, c.skipUrlNames);
    }
  }

  /** With a non-empty status-code list, a response whose status is not listed
      is returned unlogged. */
  lemma UnlistedStatusNotLogged(c: Config, env: Env, handler: Request -> Response, req: Request,
                                clock: Clock, now: Instant)
    requires c.Enabled() && c.statusCodes != [] && !PyIn(PInt(handler(req).statusCode), c.statusCodes)
    ensures !Call(c, env, handler, req, clock, now).Logged?
    ensures var o := Call(c, env, handler, req, clock, now);
            o.NotLogged? ==> o.filter == StatusNotListed
  {
  }

  /** An empty status-code list (the default, and the result of a setting of
      any type other than list or tuple) never filters a response. */
  lemma EmptyStatusListNeverFilters(s: Settings, env: Env, handler: Request -> Response, req: Request,
                                    clock: Clock, now: Instant)
    requires StatusCodesKey !in s || !IsListOrTuple(s[StatusCodesKey])
    ensures Call(Normalise(s), env, handler, req, clock, now) != NotLogged(handler(req), StatusNotListed)
  {
  }

  /** The method list is consulted only once the status-code filter has
      passed, and only when it is non-empty. */
  lemma MethodFilterAfterStatus(c: Config, env: Env, handler: Request -> Response, req: Request,
                                clock: Clock, now: Instant)
    requires Call(c, env, handler, req, clock, now).NotLogged?
    requires Call(c, env, handler, req, clock, now).filter == MethodNotListed
    ensures c.statusCodes == [] || PyIn(PInt(handler(req).statusCode), c.statusCodes)
    ensures c.methods != [] && PStr(req.httpMethod) !in c.methods
  {
    StrInIsMembership(req.httpMethod, c.methods);
  }

  /** Only the JSON, JSON:API and gzip content types are ever logged. */
  lemma OnlyLoggedContentTypes(c: Config, env: Env, handler: Request -> Response, req: Request,
                               clock: Clock, now: Instant)
    requires Call(c, env, handler, req, clock, now).Logged?
    ensures handler(req).contentType in {Some("application/json"), Some("application/vnd.api+json"),
                                         Some("application/gzip")}
  {
  }

  /** A gzip archive is recorded by its placeholder even when it is streamed. */
  lemma GzipPlaceholderWins(c: Config, env: Env, handler: Request -> Response, req: Request,
                            clock: Clock, now: Instant)
    requires Call(c, env, handler, req, clock, now).Logged?
    requires handler(req).contentType == Some("application/gzip")
    ensures Call(c, env, handler, req, clock, now).record.response == env.mask(VStr("** GZIP Archive **"))
  {
  }

  /** A streamed JSON response is recorded by its placeholder. */
  lemma StreamingPlaceholder(c: Config, env: Env, handler: Request -> Response, req: Request,
                             clock: Clock, now: Instant)
    requires Call(c, env, handler, req, clock, now).Logged?
    requires handler(req).contentType != Some("application/gzip") && handler(req).streaming
    ensures Call(c, env, handler, req, clock, now).record.response == env.mask(VStr("** Streaming **"))
  {
  }

  /** Placeholders are chosen without reading the content: the recorded body
      of a gzip or streamed response does not depend on its content nor on
      the JSON parser. */
  lemma PlaceholdersIgnoreContent(env: Env, env': Env, resp: Response, content: Payload)
    requires resp.contentType == Some("application/gzip") || resp.streaming
    ensures ResponseBody(env, resp) == ResponseBody(env', resp.(content := content))
  {
  }

  /** The only way a logged content type makes `__call__` raise is content
      that is neither gzip nor streamed and does not parse as JSON. */
  lemma UnreadableBodyRaises(c: Config, env: Env, handler: Request -> Response, req: Request,
                             clock: Clock, now: Instant)
    requires Call(c, env, handler, req, clock, now) == Raised(ResponseBodyUnreadable)
    ensures handler(req).contentType in {Some("application/json"), Some("application/vnd.api+json")}
    ensures !handler(req).streaming
    ensures ParseContent(env, handler(req).content).None?
  {
  }

  /** A logged request's record is delivered according to the two flags: the
      dumped copy to the queue when the database flag is set and the logger
      thread exists, the original record to the signal when that flag is set.
      A logged record reaches nobody only when the signal is off and the
      logger thread is missing. */
  lemma LoggedDeliversPerFlags(c: Config, env: Env, handler: Request -> Response, req: Request,
                               clock: Clock, now: Instant)
    requires Call(c, env, handler, req, clock, now).Logged?
    ensures var o := Call(c, env, handler, req, clock, now);
            var copy := DumpedCopy(env, o.record, ParseRequestBody(env, req.body));
            && (Queued(copy) in o.deliveries <==> Truthy(c.database) && env.loggerThread)
            && (Signalled(o.record) in o.deliveries <==> Truthy(c.signal))
            && (o.deliveries == [] <==> !Truthy(c.signal) && !env.loggerThread)
  {
  }
}

=== FILE: pyvalues.dfy ===
/** The part of Python's value semantics that the logger middleware relies on
    when it reads Django settings: truthiness (`if x:`), equality (`==`) and
    list membership (`x in xs`). */
module PyValues {

  /** A Python value as it may appear in a settings module. `PObject` stands
      for any other object (a dict, a Decimal, a function, ...) together with
      its truthiness, since `{}` or `Decimal(0)` is false and a function is
      true. */
  datatype PyValue =
    | PNone
    | PBool(b: bool)
    | PInt(i: int)
    | PFloat(r: real)
    | PStr(s: string)
    | PList(items: seq<PyValue>)
    | PTuple(items: seq<PyValue>)
    | PSet(items: seq<PyValue>)
    | PObject(kind: string, truthy: bool)

  /** Python truthiness: None, False, 0, 0.0 and empty containers are false;
      any other object says for itself. */
  predicate Truthy(v: PyValue) {
    match v
    case PNone => false
    case PBool(b) => b
    case PInt(i) => i != 0
    case PFloat(r) => r != 0.0
    case PStr(s) => |s| > 0
    case PList(xs) => |xs| > 0
    case PTuple(xs) => |xs| > 0
    case PSet(xs) => |xs| > 0
    case PObject(_, t) => t
  }

  /** `bool` is a subclass of `int` in Python, and ints compare with floats by
      value, so all three compare numerically. */
  predicate IsNumeric(v: PyValue) {
    v.PInt? || v.PBool? || v.PFloat?
  }

  function NumericValue(v: PyValue): real
    requires IsNumeric(v)
  {
    match v
    case PInt(i) => i as real
    case PFloat(r) => r
    case PBool(b) => if b then 1.0 else 0.0
  }

  /** Python `a == b`: numbers (ints, floats and bools) compare by value,
      everything else structurally. */
  predicate PyEq(a: PyValue, b: PyValue) {
    if IsNumeric(a) && IsNumeric(b) then NumericValue(a) == NumericValue(b) else a == b
  }

  /** Python `v in xs` for a list or tuple: a left-to-right scan with `==`. */
  function PyIn(v: PyValue, xs: seq<PyValue>): (r: bool)
    ensures r <==> exists i :: 0 <= i < |xs| && PyEq(v, xs[i])
  {
    if |xs| == 0 then false
    else if PyEq(v, xs[0]) then true
    else
      var rest := PyIn(v, xs[1..]);
      assert forall i :: 1 <= i < |xs| ==> xs[i] == xs[1..][i - 1];
      rest
  }

  /** For a string, `in` is plain membership. */
  lemma StrInIsMembership(s: string, xs: seq<PyValue>)
    ensures PyIn(PStr(s), xs) <==> PStr(s) in xs
  {
    if PStr(s) in xs {
      var i :| 0 <= i < |xs| && xs[i] == PStr(s);
      assert PyEq(PStr(s), xs[i]);
    }
  }

  /** A listed status code matches as `200.0` as well as `200`, and a listed
      `True` matches only the code 1. */
  lemma NumericMembership(n: int)
    ensures PyIn(PInt(n), [PFloat(n as real)])
    ensures PyIn(PInt(n), [PBool(true)]) <==> n == 1
  {
    assert PyEq(PInt(n), [PFloat(n as real)][0]);
    assert [PBool(true)][0] == PBool(true);
  }
}

=== FILE: save_data_call.dfy ===
/** The `save_data` call of `__call__` passes `self` twice, so every request
    that gets as far as having a record raises TypeError instead of being
    delivered. `CallAsWritten` models that call; `Call` models the evidently
    intended `self.save_data(data, request_data)` and is the one the rest of
    the model uses. */
module SaveDataCall {
  import opened Wrappers
  import opened PyValues
  import opened Http
  import opened LoggerSettings
  import opened Middleware

  /** The two versions differ exactly on the requests the corrected one logs:
      there the written one raises TypeError and delivers nothing; on every
      other request they behave alike. */
  lemma AsWrittenRaisesExactlyWhenLogged(c: Config, env: Env, handler: Request -> Response, req: Request,
                                         clock: Clock, now: Instant)
    ensures Call(c, env, handler, req, clock, now).Logged?
            <==> CallAsWritten(c, env, handler, req, clock, now) == Raised(SaveDataArity)
    ensures !Call(c, env, handler, req, clock, now).Logged?
            ==> CallAsWritten(c, env, handler, req, clock, now) == Call(c, env, handler, req, clock, now)
  {
  }

  /** A database- and signal-enabled logger with default lists. */
  const DemoConfig := Normalise(map[DatabaseKey := PBool(true), SignalKey := PBool(true)])

  /** Collaborators under which every URL resolves, every body parses as an
      empty object and the logger thread is running. */
  const DemoEnv := Env(
    resolve := (p: string) => Some(Route(Some("users"), "")),
    loads := (x: Payload) => Some(JObject([])),
    decode := (b: seq<byte>) => Some(""),
    dumps := (v: Value) => "{}",
    mask := (v: Value) => v,
    maskApi := (a: string) => a,
    headers := (r: Request) => [],
    clientIp := (r: Request) => "127.0.0.1",
    appName := (a: string) => "users",
    loggerThread := true)

  const DemoRequest := Request("GET", "/users/", [], "http://host/users/", "/users/", "host/users/")

  /** A view that answers 200 with a JSON body. */
  function DemoHandler(r: Request): Response {
    Response(200, Some("application/json"), false, Bytes([123, 125]))
  }

  /** The concrete request that shows the discrepancy: a GET answered with
      200 and `application/json`. The corrected middleware queues the record
      and signals it; the written one raises TypeError. */
  lemma ArityCounterexample()
    ensures CallAsWritten(DemoConfig, DemoEnv, DemoHandler, DemoRequest, Clock(0.0, 1.0), 0) == Raised(SaveDataArity)
    ensures var o := Call(DemoConfig, DemoEnv, DemoHandler, DemoRequest, Clock(0.0, 1.0), 0);
            o.Logged? && |o.deliveries| == 2 && o.deliveries[0].Queued? && o.deliveries[1] == Signalled(o.record)
  {
    var o := Call(DemoConfig, DemoEnv, DemoHandler, DemoRequest, Clock(0.0, 1.0), 0);
    assert DemoConfig.Enabled();
    assert !PyIn(PStr(""), DemoConfig.skipNamespaces);
    assert !PyIn(PStr("users"), DemoConfig.skipUrlNames);
    assert o.Logged?;
  }
}

=== FILE: settings.dfy ===
/** One-time configuration of the middleware (`APILoggerMiddleware.__init__`)
    and the choice of the logged URL string (`get_api_uri`). */
module LoggerSettings {
  import opened PyValues
  import opened Http

  const DatabaseKey := "DRF_API_LOGGER_DATABASE"
  const SignalKey := "DRF_API_LOGGER_SIGNAL"
  const PathTypeKey := "DRF_API_LOGGER_PATH_TYPE"
  const SkipUrlNameKey := "DRF_API_LOGGER_SKIP_URL_NAME"
  const SkipNamespaceKey := "DRF_API_LOGGER_SKIP_NAMESPACE"
  const MethodsKey := "DRF_API_LOGGER_METHODS"
  const StatusCodesKey := "DRF_API_LOGGER_STATUS_CODES"

  const Absolute := "ABSOLUTE"
  const RawUri := "RAW_URI"
  const FullPath := "FULL_PATH"
  const PathTypes: seq<string> := [Absolute, RawUri, FullPath]

  /** The Django settings module: a setting is present (`hasattr`) when its
      name is a key. */
  type Settings = map<string, PyValue>

  /** The middleware's attributes after `__init__`. The two flags keep the
      configured value and are read with Python truthiness. */
  datatype Config = Config(
    database: PyValue,
    signal: PyValue,
    pathType: string,
    skipUrlNames: seq<PyValue>,
    skipNamespaces: seq<PyValue>,
    methods: seq<PyValue>,
    statusCodes: seq<PyValue>)
  {
    /** The logger does anything at all only when one of its sinks is on. */
    predicate Enabled() {
      Truthy(database) || Truthy(signal)
    }
  }

  /** A setting that `__init__` accepts as a list: its type is exactly
      `list` or `tuple` (a set, a string or None is ignored). */
  predicate IsListOrTuple(v: PyValue) {
    v.PList? || v.PTuple?
  }

  function FlagSetting(s: Settings, key: string): (v: PyValue)
    ensures !Truthy(v) <== key !in s
    ensures key in s ==> v == s[key]
  {
    if key in s then s[key] else PBool(false)
  }

  function PathTypeSetting(s: Settings): (p: string)
    ensures p in PathTypes
    ensures p != Absolute ==> PathTypeKey in s && s[PathTypeKey] == PStr(p)
    ensures PathTypeKey in s && s[PathTypeKey].PStr? && s[PathTypeKey].s in PathTypes
            ==> p == s[PathTypeKey].s
  {
    if PathTypeKey in s then
      match s[PathTypeKey]
      case PStr(t) => if t in PathTypes then t else Absolute
      case _ => Absolute
    else Absolute
  }

  function ListSetting(s: Settings, key: string): (xs: seq<PyValue>)
    ensures |xs| > 0 ==> key in s && IsListOrTuple(s[key])
    ensures key in s && IsListOrTuple(s[key]) ==> xs == s[key].items
  {
    if key in s && IsListOrTuple(s[key]) then s[key].items else []
  }

  /** `APILoggerMiddleware.__init__`: every setting falls back to its default;
      an unrecognised path type and a list setting of any other type than
      list or tuple are ignored. */
  function Normalise(s: Settings): (c: Config)
    ensures c.pathType in PathTypes
    ensures RequestedMode(s) == AbsoluteMode ==> c.pathType == Absolute
    ensures DatabaseKey !in s ==> !Truthy(c.database)
    ensures DatabaseKey in s ==> c.database == s[DatabaseKey]
    ensures SignalKey !in s ==> !Truthy(c.signal)
    ensures SignalKey in s ==> c.signal == s[SignalKey]
    ensures PathTypeKey in s && s[PathTypeKey] in [PStr(RawUri), PStr(FullPath)] ==> PStr(c.pathType) == s[PathTypeKey]
    ensures SkipUrlNameKey in s && IsListOrTuple(s[SkipUrlNameKey]) ==> c.skipUrlNames == s[SkipUrlNameKey].items
    ensures SkipNamespaceKey in s && IsListOrTuple(s[SkipNamespaceKey]) ==> c.skipNamespaces == s[SkipNamespaceKey].items
    ensures MethodsKey in s && IsListOrTuple(s[MethodsKey]) ==> c.methods == s[MethodsKey].items
    ensures StatusCodesKey in s && IsListOrTuple(s[StatusCodesKey]) ==> c.statusCodes == s[StatusCodesKey].items
    ensures !(SkipUrlNameKey in s && IsListOrTuple(s[SkipUrlNameKey])) ==> c.skipUrlNames == []
    ensures !(SkipNamespaceKey in s && IsListOrTuple(s[SkipNamespaceKey])) ==> c.skipNamespaces == []
    ensures !(MethodsKey in s && IsListOrTuple(s[MethodsKey])) ==> c.methods == []
    ensures !(StatusCodesKey in s && IsListOrTuple(s[StatusCodesKey])) ==> c.statusCodes == []
  {
    Config(
      database := FlagSetting(s, DatabaseKey),
      signal := FlagSetting(s, SignalKey),
      pathType := PathTypeSetting(s),
      skipUrlNames := ListSetting(s, SkipUrlNameKey),
      skipNamespaces := ListSetting(s, SkipNamespaceKey),
      methods := ListSetting(s, MethodsKey),
      statusCodes := ListSetting(s, StatusCodesKey))
  }

  /** A configuration `__init__` can produce. */
  predicate WellFormed(c: Config) {
    c.pathType in PathTypes
  }

  /** The settings module that configures exactly `c` (the inverse of
      `Normalise` on well-formed configurations). */
  function Export(c: Config): Settings {
    map[DatabaseKey := c.database,
        SignalKey := c.signal,
        PathTypeKey := PStr(c.pathType),
        SkipUrlNameKey := PList(c.skipUrlNames),
        SkipNamespaceKey := PList(c.skipNamespaces),
        MethodsKey := PList(c.methods),
        StatusCodesKey := PTuple(c.statusCodes)]
  }

  /** Every well-formed configuration is reachable from some settings module,
      and `Normalise` loses nothing of it. */
  lemma NormaliseExport(c: Config)
    requires WellFormed(c)
    ensures Normalise(Export(c)) == c
  {
  }

  /** Normalising is idempotent: configuring the middleware from the settings
      of an already configured one gives the same configuration. */
  lemma NormaliseIdempotent(s: Settings)
    ensures WellFormed(Normalise(s))
    ensures Normalise(Export(Normalise(s))) == Normalise(s)
  {
    NormaliseExport(Normalise(s));
  }

  /** The logger is enabled exactly when one of the two flags is set to a
      truthy value; a flag set to `{}`, `0` or `''` counts as off. */
  lemma EnabledIff(s: Settings)
    ensures Normalise(s).Enabled() <==>
              (DatabaseKey in s && Truthy(s[DatabaseKey])) || (SignalKey in s && Truthy(s[SignalKey]))
    ensures !Normalise(map[DatabaseKey := PObject("dict", false)]).Enabled()
  {
  }

  /** `get_api_uri`: the URL string the record's `api` field is built from. */
  function GetApiUri(c: Config, req: Request): (api: string)
    ensures api in {req.absoluteUri, req.fullPath, req.rawUri}
  {
    if c.pathType == Absolute then req.absoluteUri
    else if c.pathType == FullPath then req.fullPath
    else if c.pathType == RawUri then req.rawUri
    else req.absoluteUri
  }

  /** The three ways of rendering a request URL. */
  datatype PathMode = AbsoluteMode | RawUriMode | FullPathMode

  function Render(m: PathMode, req: Request): string {
    match m
    case AbsoluteMode => req.absoluteUri
    case RawUriMode => req.rawUri
    case FullPathMode => req.fullPath
  }

  /** The rendering a settings module asks for, read directly off the
      setting: an exact `'RAW_URI'` or `'FULL_PATH'` string selects that mode,
      and anything else (absent, another string, another type) selects the
      absolute URI. */
  function RequestedMode(s: Settings): PathMode {
    if PathTypeKey in s && s[PathTypeKey] == PStr(RawUri) then RawUriMode
    else if PathTypeKey in s && s[PathTypeKey] == PStr(FullPath) then FullPathMode
    else AbsoluteMode
  }

  /** After `__init__`, `get_api_uri` renders the URL the settings ask for;
      its final fallback branch is never the one that decides. */
  lemma ApiUriFollowsSettings(s: Settings, req: Request)
    ensures GetApiUri(Normalise(s), req) == Render(RequestedMode(s), req)
  {
  }
}

=== FILE: wrappers.dfy ===
/** Optional values, used for the results of collaborators that may fail
    (a JSON parse, a URL resolution, a byte decode) and for absent headers. */
module Wrappers {

  datatype Option<+T> = None | Some(value: T)
}
